=== FILE: README.md ===
# Todo app with chat assistant — a Dafny model of its core

The system is a small to-do application. A FastAPI backend keeps a per-user
table of tasks (title, completed flag, priority) behind list, create, update
and delete endpoints. A React frontend shows the list, lets the user add,
toggle, re-prioritise and delete tasks, and offers a chat widget that talks
to an assistant. A small Node script loads `.env.local` into the process
environment before running a migration.

This project models:

- **the task table** (`backend/main.py`, module `TaskStore`). The table is
  a class holding a map from id to task and the next autoincrement id.
  Create, update and delete are methods that change it in place. Listing
  is a pure function over the map. Every handler keeps the table invariant:
  ids match their keys, every title has 1 to 200 characters, every priority
  is one of High, Medium and Low.
- **the `.env` line parser** (`frontend/migrate-auth.js`, module
  `EnvLoader`). The content is split at `\n` and each line is parsed as the
  script does. The resulting assignments are written into a dictionary,
  first to last. JavaScript's `trim` is modelled exactly over its
  whitespace set in module `Text`, which also holds the case-insensitive
  search of the backend. `indexOf`, `split` and the quote-stripping
  `slice(1, -1)` are `IndexOf`, `Split` and `Unquote` in module `EnvLoader`.
- **the client state machines** (`TaskListView`, `TaskCardView`,
  `CreateTaskFormView`, `ChatWidgetView`). Each component is a class whose
  fields are its React state. A handler that issues a request returns the
  request. A separate `Settle` method applies the response. Network
  responses are parameters (`Outcome`: success with a value, or a rejection
  with the `Error`'s message when there is one). The task list numbers each
  run of its fetch effect. A run's `cancelled` flag is true exactly when it
  is no longer the last run or the list has been unmounted.
- **what crosses the wire** (`Api`, `EndToEnd`). This covers the `Task` and
  `TaskUpdate` shapes, the JSON bodies, and what the backend does with the
  bodies the components send.

Three behaviours of the code are easy to miss, and the model keeps them:

- An update body without `priority` does not leave the stored priority
  alone. The body is parsed as `TaskCreate`, whose priority defaults to
  "Medium", so the stored priority becomes "Medium".
- The backend checks the title length without trimming, so `"   "` is a
  valid title.
- New tasks default to "Medium".

## Model

| member | source | states |
|---|---|---|
| TaskStore.WithDefaults | backend/main.py:53-57 | the title is kept; completed is true only when the body says true; a sent priority is kept and an omitted one becomes "Medium"; the defaulted priority passes the priority rule exactly when the body omitted it or sent a valid one |
| TaskStore.Matches | backend/main.py:81-95 | a match is always the caller's own task; a title search only matches titles at least as long as it; with both filters absent or empty, exactly the caller's tasks match |
| TaskStore.ValidPriorityIsName | backend/main.py:89-90 | the accepted priority strings are exactly the names of the frontend's three priorities |
| TaskStore.Scan | backend/main.py:81-97 | every task scanned is in the table and matches owner, title search and priority filter; every matching task below the bound is included |
| TaskStore.ListTasks | backend/main.py:81-99 | fails exactly when a non-empty priority is outside the set, with the 400 detail; on success returns only the caller's matching tasks |
| TaskStore.ListTasksComplete | backend/main.py:81-99 | on a well-formed table with a valid filter, the list holds every matching task and nothing else, in strictly increasing id order |
| TaskStore.ScanFollowsIds | backend/main.py:97-99 | listed tasks appear under their own id, ids strictly increase, so no task is listed twice |
| TaskStore.AbsentIdNotListed | backend/main.py:81-99 | on a well-formed table, an id that is not in the table appears in no listing |
| TaskStore.TaskTable.constructor | backend/main.py:35-38 | the table created at startup is empty, its first id is 1, and it satisfies the invariant (the source does not show the starting rows; the model starts empty) |
| TaskStore.TaskTable.Create | backend/main.py:110-130 | empty or over-long title gives 400 with the table unchanged; otherwise a bad priority gives 400; otherwise exactly one task is added under the next autoincrement id, which is then advanced, with completed false and priority "Medium" when omitted; an id below the counter that is absent stays absent; the invariant is kept |
| TaskStore.TaskTable.Update | backend/main.py:156-178 | absent or foreign task gives 404 before the handler's own title and priority checks; then the title and priority errors; on success only that task changes, getting the body's title and completed flag and the body's priority or "Medium" while keeping its id and owner; no absent id comes back |
| TaskStore.TaskTable.Delete | backend/main.py:189-196 | absent or foreign task gives 404 with the table unchanged; otherwise exactly that task is removed and "Task deleted" is returned; no absent id comes back |
| Text.TrimStart | frontend/migrate-auth.js:15 | the result is a suffix of the input that does not start with whitespace |
| Text.TrimStartDropsSpace | frontend/migrate-auth.js:15 | everything the start trim drops is whitespace |
| Text.TrimEnd | frontend/migrate-auth.js:15 | the result is a prefix of the input that does not end with whitespace |
| Text.TrimEndDropsSpace | frontend/migrate-auth.js:15 | everything the end trim drops is whitespace |
| Text.Trim | frontend/migrate-auth.js:15 | `trim` never lengthens a string, and a non-empty result neither starts nor ends with whitespace |
| Text.TrimSplitsPadding | frontend/migrate-auth.js:15 | every string is its trimmed form with whitespace before and after |
| Text.TrimBlankIff | frontend/components/CreateTaskForm.tsx:19-20 | trimming gives the empty string exactly when the input is all whitespace |
| Text.TrimUnchanged | frontend/migrate-auth.js:19-20 | a string with non-whitespace ends is its own trim |
| Text.TrimOfPadded | frontend/migrate-auth.js:15 | trimming whitespace + core + whitespace gives back the core |
| Text.TrimIdempotent | frontend/migrate-auth.js:19 | trimming twice is trimming once |
| Text.LowerCharSame | backend/main.py:85 | two characters fold to the same one exactly when they are equal or are the capital and small form of one ASCII letter |
| Text.Contains | backend/main.py:85 | true exactly when the pattern occurs at some position of the text |
| Text.ContainsIgnoringCase | backend/main.py:84-85 | true exactly when some window of the title spells the search text up to the case of ASCII letters |
| Text.ContainsIgnoringCaseIgnoresCase | backend/main.py:84-85 | changing the case of letters in the title or in the search text never changes the answer |
| EnvLoader.IndexOf | frontend/migrate-auth.js:17 | -1 exactly when the character is absent; otherwise the first position holding it |
| EnvLoader.Split | frontend/migrate-auth.js:14 | at least one piece, and no piece contains the separator |
| EnvLoader.JoinSplit | frontend/migrate-auth.js:14 | joining the pieces with the separator gives the content back |
| EnvLoader.SplitJoin | frontend/migrate-auth.js:14 | splitting a join of separator-free pieces gives the pieces back |
| EnvLoader.Unquote | frontend/migrate-auth.js:21-23 | an unquoted value is kept; a quoted value of two or more characters is the result wrapped in its quote character; a lone quote becomes empty |
| EnvLoader.UnquoteQuoted | frontend/migrate-auth.js:21-23 | a value wrapped in matching `"` or `'` loses exactly those two characters |
| EnvLoader.UnquoteUnquoted | frontend/migrate-auth.js:21-23 | a value without a matching pair of quotes is kept unchanged |
| EnvLoader.ParseLine | frontend/migrate-auth.js:15-24 | a line assigns exactly when its trimmed form is non-empty, does not start with `#`, contains `=` and does not start with `=` |
| EnvLoader.ParsedKeyIsClean | frontend/migrate-auth.js:17-19 | every assigned key is non-empty, contains no `=` and is already trimmed |
| EnvLoader.ParseTrimmed | frontend/migrate-auth.js:17-23 | a line trimming to `key=value`, with no `=` in the key, assigns the trimmed, unquoted value to the trimmed key (so `KEY = value` sets `KEY`), even when the value contains `=` |
| EnvLoader.LoneQuoteBecomesEmpty | frontend/migrate-auth.js:19-22 | a value that trims to a single `"` or `'` becomes the empty string, for any key and any whitespace around the `=` (`KEY = "` sets `KEY` to "") |
| EnvLoader.ParseLines | frontend/migrate-auth.js:14-15 | one parse result per line |
| EnvLoader.Apply | frontend/migrate-auth.js:24 | only the assigned key changes: it gets the value, every other key keeps its presence and value |
| EnvLoader.ApplyAll | frontend/migrate-auth.js:14-27 | no key is ever removed, and every added key is assigned by some line |
| EnvLoader.LoadEnv | frontend/migrate-auth.js:12-28 | no variable is removed, and every variable the file adds has a non-empty key without `=` or surrounding whitespace, so the empty key is never set |
| EnvLoader.ParsedKeysClean | frontend/migrate-auth.js:17-19 | every key any line of a file assigns is non-empty, has no `=` and is already trimmed |
| EnvLoader.LastAssignmentWins | frontend/migrate-auth.js:24 | the last line that assigns a key decides its value |
| EnvLoader.UnassignedKeyKept | frontend/migrate-auth.js:24 | a key no line assigns keeps its presence and value |
| EnvLoader.ReadLine | frontend/migrate-auth.js:15-23 | the step-by-step parse of one line (trim, `#` test, `indexOf`, slices, unquote) computes the line's assignment |
| EnvLoader.ApplyLine | frontend/migrate-auth.js:15-25 | one callback writes exactly the line's assignment into the dictionary |
| EnvLoader.LoadLines | frontend/migrate-auth.js:14-27 | the `forEach` loop leaves the dictionary as the assignments of all lines applied in order |
| EnvLoader.ProcessEnv.constructor | frontend/migrate-auth.js:24 | the environment starts as given |
| EnvLoader.ProcessEnv.LoadDotEnv | frontend/migrate-auth.js:12-28 | loading the file applies every line's assignment to the environment, in order |
| TaskListView.SelectView | frontend/components/TaskList.tsx:45-81 | spinner exactly while loading; otherwise an alert exactly for a non-empty error; otherwise the empty notice exactly for no tasks; otherwise the cards of exactly the tasks |
| TaskListView.TaskListController.constructor | frontend/components/TaskList.tsx:22-30 | starts with no tasks, loading, no error, and one fetch for the user |
| TaskListView.TaskListController.SetProps | frontend/components/TaskList.tsx:26-30 | a changed `(userId, refreshTrigger)` sets loading, clears the error and issues exactly one fetch; unchanged props change nothing |
| TaskListView.TaskListController.Unmount | frontend/components/TaskList.tsx:40-42 | the cleanup cancels the live run and changes nothing shown |
| TaskListView.TaskListController.Settle | frontend/components/TaskList.tsx:30-39 | a cancelled run changes neither tasks, error nor loading; the live run replaces the tasks wholesale on success, or sets the message or "Failed to load tasks" and keeps the tasks on failure, and ends loading; loading holds exactly while the live run is outstanding |
| TaskListView.SupersededFetch | frontend/components/TaskList.tsx:26-43 | after a user switch the list shows the second user's tasks, whichever response arrives last |
| TaskListView.FailedReload | frontend/components/TaskList.tsx:34-38 | a failed reload keeps the old tasks and shows the fallback error instead |
| TaskCardView.Fallback | frontend/components/TaskCard.tsx:35 | every fallback text starts with "Failed to " and so is non-empty, which the card's `error &&` test shows |
| TaskCardView.FallbackNamesAction | frontend/components/TaskCard.tsx:55 | the three handlers' fallback texts are pairwise different, so the text tells which action failed |
| TaskCardView.TaskCard.constructor | frontend/components/TaskCard.tsx:13-15 | the card starts idle with no error |
| TaskCardView.TaskCard.ReceiveTask | frontend/components/TaskCard.tsx:13 | a re-render replaces only the task |
| TaskCardView.TaskCard.Start | frontend/components/TaskCard.tsx:25-27 | while loading nothing is sent or changed; otherwise the error is cleared, loading starts and the request is sent |
| TaskCardView.TaskCard.HandleToggleCompleted | frontend/components/TaskCard.tsx:24-32 | a no-op while loading; otherwise sends, for exactly this task and user, an update with the same title, the negated completed flag and no priority |
| TaskCardView.TaskCard.HandlePriorityChange | frontend/components/TaskCard.tsx:42-52 | a no-op while loading; otherwise sends, for exactly this task and user, an update with the same title and completed flag and the chosen priority |
| TaskCardView.TaskCard.HandleDelete | frontend/components/TaskCard.tsx:61-66 | a no-op while loading; otherwise sends the delete of exactly `task.id` for `userId` |
| TaskCardView.TaskCard.Settle | frontend/components/TaskCard.tsx:33-38 | notifies the parent exactly on success; on failure shows the message or the handler's fallback; loading always ends |
| TaskCardView.DoubleClick | frontend/components/TaskCard.tsx:25 | a second click before the first request settles sends nothing |
| CreateTaskFormView.Clip | frontend/components/CreateTaskForm.tsx:43 | the kept text is the first at most 200 characters of what was typed |
| CreateTaskFormView.CreateTaskForm.constructor | frontend/components/CreateTaskForm.tsx:13-15 | empty title, idle, no error |
| CreateTaskFormView.CreateTaskForm.Edit | frontend/components/CreateTaskForm.tsx:40-44 | typing sets the title to the clipped text unless the input is disabled while loading |
| CreateTaskFormView.CreateTaskForm.Submit | frontend/components/CreateTaskForm.tsx:17-24 | a blank title or a submit while loading sends nothing and changes nothing; otherwise clears the error, starts loading and posts the trimmed title |
| CreateTaskFormView.CreateTaskForm.Settle | frontend/components/CreateTaskForm.tsx:25-31 | success clears the title and notifies; failure keeps the title, sets the message or "Failed to add task" and does not notify; loading ends |
| CreateTaskFormView.BlankTitleSendsNothing | frontend/components/CreateTaskForm.tsx:19-20 | whitespace typed into the form never produces a request |
| ChatWidgetView.ChatWidget.constructor | frontend/components/ChatWidget.tsx:13-27 | the transcript is exactly the greeting, the input is empty and nothing is awaited |
| ChatWidgetView.ChatWidget.Edit | frontend/components/ChatWidget.tsx:127-132 | typing sets the input unless it is disabled while thinking |
| ChatWidgetView.ChatWidget.Send | frontend/components/ChatWidget.tsx:34-46 | a blank input, no user id or a pending reply make it a no-op; otherwise the input is cleared, exactly one user message with the trimmed text is appended, thinking starts and the request carries the user id and trimmed text |
| ChatWidgetView.ChatWidget.Settle | frontend/components/ChatWidget.tsx:47-56 | appends exactly one assistant message: the reply with a refresh, or the fixed apology without one; thinking ends; the transcript keeps alternating |
| ChatWidgetView.Exchange | frontend/components/ChatWidget.tsx:34-57 | one accepted exchange extends the greeting by exactly the user's trimmed message and one assistant message |
| Api.PriorityNamed | frontend/lib/api.ts:14 | the priority a wire string names, if any, has that string as its name; each of the three names is recognised |
| Api.PriorityNamedName | frontend/lib/api.ts:30-34 | reading back a priority's name gives the priority |
| Api.CreateBody | frontend/lib/api.ts:22-28 | `createTask` posts the title and nothing else, leaving completed and priority to the backend's defaults |
| Api.UpdateBody | frontend/lib/api.ts:36-43 | the PUT body carries the update without loss: the title, the completed flag, and a priority field exactly when the update has one, naming that priority |
| EndToEnd.FormTitleAccepted | frontend/components/CreateTaskForm.tsx:19-24 | every title the form can post passes the backend's title rule, and the omitted fields default to false and "Medium" |
| EndToEnd.ToggleResetsPriority | frontend/components/TaskCard.tsx:29-32 | the toggle's body reaches the backend as the same title, the negated completed flag and priority "Medium" |
| EndToEnd.PriorityChangeStored | frontend/components/TaskCard.tsx:48-52 | a priority button's body is stored as sent and always passes the priority rule |
| EndToEnd.DoubleToggle | backend/main.py:172-174 | a "High" task toggled twice is incomplete again but now has priority "Medium" |
| EndToEnd.RepeatDelete | backend/main.py:189-196 | the first delete succeeds and the repeat gives 404 |
| EndToEnd.ForeignUserRejected | backend/main.py:156-160 | another user's update or delete gives 404 even with an invalid body |
| EndToEnd.DeletedTaskStaysUnlisted | backend/main.py:181-196 | after a delete followed by further creates, updates and deletes, the owner's listing never shows the deleted id, and it does show the updated task |
| EndToEnd.CreatedTaskListed | backend/main.py:122-130 | a created task appears in its owner's unfiltered list, which holds only that owner's tasks |

## Left out

- Kafka. The task-created event and the producer's start and stop hooks are left out because they are broker I/O. In the source the event is sent after the commit, so a failed send fails the request even though the task is stored.
- The database. The session, the ORM and the commit are replaced by the in-memory map. The autoincrement column becomes `nextId`. The database engine and the table definition are not part of this model, so the model assumes that ids are never reused; a PostgreSQL sequence behaves so, while SQLite's default integer key can hand out the id of a deleted newest row again. The "no absent id comes back" clauses of `TaskStore.TaskTable.Create`, `Update` and `Delete`, and with them `EndToEnd.DeletedTaskStaysUnlisted`, rest on this assumption. The query in `list_tasks` has no `ORDER BY`, so the row order is up to the database; the model chooses ascending id order.
- Request-schema validation. FastAPI checks the path's `task_id` against `int` and the body against `TaskCreate` before a handler runs, and answers 422 when they do not fit (a missing `title`, a `null` priority, a non-integer id), even for an absent or foreign task. The model's typed `Body` and integer ids only express requests that pass this step.
- SQL `ILIKE`. The title search is modelled as an ASCII case-insensitive substring test. In the real query `%` and `_` act as wildcards, and non-ASCII case folding depends on the database.
- The `/api/chat` handler and its agent are left out because they are a foreign call. So are `dummy_auth` and CORS.
- The sign-in form and the page are left out. The page's counter increments are only the `refreshTrigger` input of `TaskListView.TaskListController.SetProps`.
- `router.refresh()` in the chat widget is only the `refreshRequested` flag. It does not re-fetch the task list.
- File and process I/O in the migration script are parameters or left out: `existsSync`, `readFileSync` and `execSync`. The file's content is a parameter of `LoadDotEnv`.
- JSX rendering, styling and the chat's scroll effect are left out. The list's rendering is the `View` value.
- TaskListView.TaskListController.Settle: `then`/`catch` and `finally` run as one step. The model has no state between them.
- TaskCardView.TaskCard.Start: the loading guard reads the current state. The source's handlers read the `loading` of the render they were created in. Two clicks inside one render could both pass there, but the disabled buttons prevent that.
- CreateTaskFormView.Clip counts Unicode characters, while a browser's `maxLength` counts UTF-16 code units. The two differ only for characters outside the Basic Multilingual Plane.
- The responses' contents are parameters. A successful update or create response is not checked against the table, since the components do not read it.

=== FILE: api.dfy ===
/**
 * The shapes exchanged between the frontend and the task API: the Task
 * record, the update payload, the JSON body of POST and PUT, the requests
 * the components issue and the way a request settles.
 */
module Api {
  import opened Base

  /** The three priorities the frontend offers. */
  datatype Priority = Low | Medium | High {
    /** The string that travels on the wire and is stored by the backend. */
    function Name(): string {
      match this
      case Low => "Low"
      case Medium => "Medium"
      case High => "High"
    }
  }

  /** The priority a wire string names, if any: the inverse of `Name`. */
  function PriorityNamed(s: string): (p: Option<Priority>)
    ensures p.Some? ==> p.value.Name() == s
    ensures s == "Low" || s == "Medium" || s == "High" ==> p.Some?
  {
    if s == "Low" then Some(Low)
    else if s == "Medium" then Some(Medium)
    else if s == "High" then Some(High)
    else None
  }

  /** Naming a priority and reading the name back gives the priority. */
  lemma PriorityNamedName(p: Priority)
    ensures PriorityNamed(p.Name()) == Some(p)
  {
  }

  /** A stored task. The backend keeps the priority as a string. */
  datatype Task = Task(id: int, userId: string, title: string, completed: bool, priority: string)

  /** `TaskUpdate`: title and completed always present, priority optional. */
  datatype TaskUpdate = TaskUpdate(title: string, completed: bool, priority: Option<Priority>)

  /** The JSON body of POST and PUT as it arrives: a field the client
      omitted is `None`. */
  datatype Body = Body(title: string, completed: Option<bool>, priority: Option<string>)

  /** `createTask` posts `{title}` and nothing else. */
  function CreateBody(title: string): (b: Body)
    ensures b.title == title && b.completed.None? && b.priority.None?
  {
    Body(title, None, None)
  }

  /** `updateTask` puts the update object; an undefined priority is left
      out of the JSON text. */
  function UpdateBody(u: TaskUpdate): (b: Body)
    ensures b.title == u.title && b.completed == Some(u.completed)
    ensures b.priority.None? <==> u.priority.None?
    ensures b.priority.Some? ==> PriorityNamed(b.priority.value) == u.priority
  {
    Body(u.title, Some(u.completed), if u.priority.Some? then Some(u.priority.value.Name()) else None)
  }

  /** A network request issued by a component. */
  datatype Request =
    | GetTasks(userId: string)
    | CreateTask(userId: string, title: string)
    | UpdateTask(userId: string, taskId: int, update: TaskUpdate)
    | DeleteTask(userId: string, taskId: int)
    | Chat(userId: string, message: string)

  /** How a request settles. A rejection carries the `message` of the
      thrown value when it is an `Error`, and `None` otherwise. */
  datatype Outcome<+T> = Succeeded(value: T) | Failed(message: Option<string>)

  /** `err instanceof Error ? err.message : fallback`. */
  function ErrorText(message: Option<string>, fallback: string): string {
    if message.Some? then message.value else fallback
  }
}

=== FILE: base.dfy ===
/** Option and Result, used for optional request fields and for error returns. */
module Base {

  datatype Option<+T> = None | Some(value: T)

  datatype Result<+R, +E> = Success(value: R) | Failure(error: E)
}

=== FILE: chat_widget.dfy ===
/**
 * The chat widget: a transcript that starts with the assistant's greeting
 * and grows by one user message and one assistant reply per accepted send.
 */
module ChatWidgetView {
  import opened Base
  import opened Text
  import opened Api

  datatype Role = User | Assistant

  datatype Message = Message(role: Role, content: string)

  const Greeting := "Hi! I'm your AI assistant. You can ask me to add, list, complete, or delete tasks. How can I help?"
  const FailureReply := "Something went wrong. Please try again."

  /** `INITIAL_MESSAGES`. */
  const InitialMessages: seq<Message> := [Message(Assistant, Greeting)]

  /** The shape every transcript keeps: the greeting first, then user and
      assistant messages alternating. */
  predicate Alternates(messages: seq<Message>) {
    && |messages| >= 1
    && messages[0] == Message(Assistant, Greeting)
    && forall i :: 0 < i < |messages| ==> messages[i].role != messages[i - 1].role
  }

  class ChatWidget {
    var messages: seq<Message>
    var input: string
    var thinking: bool
    /** Set once `router.refresh()` has been called. */
    var refreshRequested: bool

    /** The transcript alternates, and a request is outstanding exactly
        when the last message is the user's. */
    ghost predicate Valid()
      reads this
    {
      && Alternates(messages)
      && (thinking <==> messages[|messages| - 1].role == User)
    }

    constructor ()
      ensures Valid()
      ensures messages == InitialMessages && input == "" && !thinking && !refreshRequested
    {
      messages := InitialMessages;
      input := "";
      thinking := false;
      refreshRequested := false;
    }

    /** Typing; the input is disabled while thinking. */
    method Edit(text: string)
      requires Valid()
      modifies this
      ensures Valid()
      ensures messages == old(messages) && thinking == old(thinking) && refreshRequested == old(refreshRequested)
      ensures input == if old(thinking) then old(input) else text
    {
      if !thinking {
        input := text;
      }
    }

    /** `send`: ignored when the trimmed input is empty, there is no
        signed-in user id, or a reply is awaited. Otherwise the input is
        cleared, the trimmed text is appended as the user's message and the
        request goes out. */
    method Send(sessionUserId: Option<string>) returns (sent: Option<Request>)
      requires Valid()
      modifies this
      ensures Valid() && refreshRequested == old(refreshRequested)
      ensures var accepted := Trim(old(input)) != "" && sessionUserId.Some? && sessionUserId.value != "" && !old(thinking);
        && (!accepted ==>
          sent == None && messages == old(messages) && input == old(input) && thinking == old(thinking))
        && (accepted ==>
          && sent == Some(Chat(sessionUserId.value, Trim(old(input))))
          && messages == old(messages) + [Message(User, Trim(old(input)))]
          && input == "" && thinking)
    {
      var trimmed := Trim(input);
      if trimmed == "" || sessionUserId == None || sessionUserId.value == "" || thinking {
        return None;
      }
      input := "";
      messages := messages + [Message(User, trimmed)];
      thinking := true;
      sent := Some(Chat(sessionUserId.value, trimmed));
    }

    /** The request settles: the reply, or the fixed apology, is appended
        as the assistant's message; only a reply requests a refresh. */
    method Settle(outcome: Outcome<string>)
      requires Valid() && thinking
      modifies this
      ensures Valid() && !thinking && input == old(input)
      ensures outcome.Succeeded? ==>
        messages == old(messages) + [Message(Assistant, outcome.value)] && refreshRequested
      ensures outcome.Failed? ==>
        messages == old(messages) + [Message(Assistant, FailureReply)] && refreshRequested == old(refreshRequested)
    {
      match outcome {
        case Succeeded(reply) =>
          messages := messages + [Message(Assistant, reply)];
          refreshRequested := true;
        case Failed(_) =>
          messages := messages + [Message(Assistant, FailureReply)];
      }
      thinking := false;
    }
  }

  /** One accepted exchange extends the transcript by exactly the user's
      trimmed message and one assistant message, keeping everything before. */
  method Exchange(userId: string, typed: string, reply: Outcome<string>) returns (before: seq<Message>, after: seq<Message>)
    requires userId != "" && Trim(typed) != ""
    ensures before == InitialMessages
    ensures |after| == |before| + 2 && after[..|before|] == before
    ensures after[|before|] == Message(User, Trim(typed))
    ensures after[|before| + 1].role == Assistant
  {
    var chat := new ChatWidget();
    before := chat.messages;
    chat.Edit(typed);
    var sent := chat.Send(Some(userId));
    chat.Settle(reply);
    after := chat.messages;
  }
}

=== FILE: create_task_form.dfy ===
/**
 * The form that adds a task: a title input limited to 200 characters and
 * a submit handler that posts the trimmed title.
 */
module CreateTaskFormView {
  import opened Base
  import opened Text
  import opened Api

  /** The input's `maxLength`. */
  const MaxInputLength: nat := 200
  const AddFailed := "Failed to add task"

  /** What the browser keeps of typed text: its first 200 characters. */
  function Clip(text: string): (r: string)
    ensures |r| <= MaxInputLength && |r| <= |text|
    ensures r == text[..|r|]
    ensures |text| <= MaxInputLength ==> r == text
    ensures |text| > MaxInputLength ==> |r| == MaxInputLength
  {
    if |text| <= MaxInputLength then text else text[..MaxInputLength]
  }

  class CreateTaskForm {
    var userId: string
    var title: string
    var loading: bool
    var error: Option<string>

    ghost predicate Valid()
      reads this
    {
      && |title| <= MaxInputLength
      && (loading ==> error == None)
    }

    constructor (userId: string)
      ensures Valid()
      ensures this.userId == userId && title == "" && !loading && error == None
    {
      this.userId := userId;
      title := "";
      loading := false;
      error := None;
    }

    /** Typing into the input; the input is disabled while loading. */
    method Edit(text: string)
      requires Valid()
      modifies this
      ensures Valid()
      ensures userId == old(userId) && loading == old(loading) && error == old(error)
      ensures title == if old(loading) then old(title) else Clip(text)
    {
      if !loading {
        title := Clip(text);
      }
    }

    /** `handleSubmit`: nothing happens for a blank title or while
        loading; otherwise the error is cleared, loading starts and the
        trimmed title is posted. */
    method Submit() returns (sent: Option<Request>)
      requires Valid()
      modifies this
      ensures Valid()
      ensures userId == old(userId) && title == old(title)
      ensures Trim(old(title)) == "" || old(loading) ==>
        sent == None && loading == old(loading) && error == old(error)
      ensures Trim(old(title)) != "" && !old(loading) ==>
        sent == Some(CreateTask(userId, Trim(title))) && loading && error == None
    {
      var trimmed := Trim(title);
      if trimmed == "" || loading {
        return None;
      }
      error := None;
      loading := true;
      sent := Some(CreateTask(userId, trimmed));
    }

    /** The post settles: success empties the input and reports
        `onTaskAdded`; failure keeps the typed title and shows the error.
        Loading ends either way. */
    method Settle(outcome: Outcome<Task>) returns (notify: bool)
      requires Valid() && loading
      modifies this
      ensures Valid() && !loading && userId == old(userId)
      ensures notify <==> outcome.Succeeded?
      ensures outcome.Succeeded? ==> title == "" && error == None
      ensures outcome.Failed? ==>
        title == old(title) && error == Some(ErrorText(outcome.message, AddFailed))
    {
      match outcome {
        case Succeeded(_) =>
          title := "";
          notify := true;
        case Failed(message) =>
          error := Some(ErrorText(message, AddFailed));
          notify := false;
      }
      loading := false;
    }
  }

  /** A whitespace-only title sends nothing, whatever was typed. */
  method BlankTitleSendsNothing(userId: string, spaces: string) returns (sent: Option<Request>)
    requires AllSpace(spaces)
    ensures sent == None
  {
    var form := new CreateTaskForm(userId);
    form.Edit(spaces);
    assert AllSpace(form.title) by {
      forall k | 0 <= k < |form.title| ensures IsJsSpace(form.title[k]) {
        assert form.title[k] == spaces[k];
      }
    }
    TrimBlankIff(form.title);
    sent := form.Submit();
  }
}

=== FILE: end_to_end.dfy ===
/**
 * What the components send, read through the backend's rules: the
 * request bodies the frontend builds and the handlers that receive them.
 */
module EndToEnd {
  import opened Base
  import opened Text
  import opened Api
  import opened TaskStore
  import TaskCardView
  import CreateTaskFormView

  /** Every title the form can post passes the backend's title rule, and
      the omitted priority defaults to a valid one. */
  lemma FormTitleAccepted(typed: string)
    requires |typed| <= CreateTaskFormView.MaxInputLength && Trim(typed) != ""
    ensures ValidTitle(WithDefaults(CreateBody(Trim(typed))).title)
    ensures WithDefaults(CreateBody(Trim(typed))) == TaskCreate(Trim(typed), false, DefaultPriority)
    ensures ValidPriority(WithDefaults(CreateBody(Trim(typed))).priority)
  {
  }

  /** The toggle's body has no priority, so the backend stores "Medium"
      whatever the task's priority was. */
  lemma ToggleResetsPriority(t: Task)
    ensures WithDefaults(UpdateBody(TaskCardView.ToggleUpdate(t))) == TaskCreate(t.title, !t.completed, "Medium")
  {
  }

  /** A priority button's body is stored as sent and always passes the
      priority rule. */
  lemma PriorityChangeStored(t: Task, p: Priority)
    ensures WithDefaults(UpdateBody(TaskCardView.PriorityUpdate(t, p))) == TaskCreate(t.title, t.completed, p.Name())
    ensures ValidPriority(p.Name())
  {
  }

  /** A "High" task toggled twice is not completed again, but its priority
      has become "Medium". */
  method DoubleToggle(userId: string, title: string) returns (created: Task, toggled: Task)
    requires ValidTitle(title)
    ensures created.priority == "High" && !created.completed
    ensures toggled.id == created.id && toggled.title == title
    ensures !toggled.completed && toggled.priority == "Medium"
  {
    var table := new TaskTable();
    var r := table.Create(userId, Body(title, None, Some("High")));
    created := r.value;
    var once := table.Update(userId, created.id, UpdateBody(TaskCardView.ToggleUpdate(created)));
    var twice := table.Update(userId, created.id, UpdateBody(TaskCardView.ToggleUpdate(once.value)));
    toggled := twice.value;
  }

  /** Deleting the same task twice: the first call succeeds, the second
      finds nothing. */
  method RepeatDelete(userId: string, title: string) returns (first: Result<string, HttpError>, second: Result<string, HttpError>)
    requires ValidTitle(title)
    ensures first == Success(DeletedMessage)
    ensures second == Failure(TaskNotFound)
  {
    var table := new TaskTable();
    var r := table.Create(userId, CreateBody(title));
    first := table.Delete(userId, r.value.id);
    second := table.Delete(userId, r.value.id);
  }

  /** Another user can neither change nor delete a task. */
  method ForeignUserRejected(owner: string, other: string, title: string) returns (update: Result<Task, HttpError>, delete: Result<string, HttpError>)
    requires ValidTitle(title) && owner != other
    ensures update == Failure(TaskNotFound) && delete == Failure(TaskNotFound)
  {
    var table := new TaskTable();
    var r := table.Create(owner, CreateBody(title));
    update := table.Update(other, r.value.id, CreateBody(""));
    delete := table.Delete(other, r.value.id);
  }

  /** A created task shows up in its owner's unfiltered list. */
  method CreatedTaskListed(userId: string, title: string) returns (created: Task, listed: seq<Task>)
    requires ValidTitle(title)
    ensures created in listed
    ensures forall t :: t in listed ==> t.userId == userId
  {
    var table := new TaskTable();
    var r := table.Create(userId, CreateBody(title));
    created := r.value;
    ListTasksComplete(table.db, table.nextId, userId, None, None);
    listed := ListTasks(table.db, table.nextId, userId, None, None).value;
  }

  /** A deleted task's id is never handed out again: after more creates,
      updates and deletes, the owner's listing does not show that id. */
  method DeletedTaskStaysUnlisted(userId: string, title: string, later: string) returns (gone: Task, listed: seq<Task>)
    requires ValidTitle(title) && ValidTitle(later)
    ensures forall t :: t in listed ==> t.id != gone.id
    ensures exists t :: t in listed && t.title == later
  {
    var table := new TaskTable();
    var first := table.Create(userId, CreateBody(title));
    gone := first.value;
    var deleted := table.Delete(userId, gone.id);
    var second := table.Create(userId, CreateBody(title));
    var updated := table.Update(userId, second.value.id, CreateBody(later));
    var third := table.Create(userId, CreateBody(later));
    var removed := table.Delete(userId, third.value.id);
    AbsentIdNotListed(table.db, table.nextId, gone.id, userId, None, None);
    ListTasksComplete(table.db, table.nextId, userId, None, None);
    listed := ListTasks(table.db, table.nextId, userId, None, None).value;
    assert updated.value in listed;
  }
}

=== FILE: env_loader.dfy ===
/**
 * The `.env.local` loader of the auth migration script: the file's text is
 * split into lines and every `KEY=value` line is written into the process
 * environment, later lines overwriting earlier ones.
 */
module EnvLoader {
  import opened Base
  import opened Text

  /** `s.indexOf(c)`: the first position of `c` in `s`, or -1. */
  function IndexOf(s: string, c: char): (r: int)
    ensures -1 <= r < |s|
    ensures r == -1 <==> c !in s
    ensures r >= 0 ==> s[r] == c && c !in s[..r]
    decreases |s|
  {
    if |s| == 0 then -1
    else if s[0] == c then 0
    else
      var i := IndexOf(s[1..], c);
      assert s == [s[0]] + s[1..];
      if i < 0 then -1
      else
        assert s[..i + 1] == [s[0]] + s[1..][..i];
        i + 1
  }

  lemma IndexOfAfter(a: string, c: char, b: string)
    requires c !in a
    ensures IndexOf(a + [c] + b, c) == |a|
  {
    var s := a + [c] + b;
    assert s[|a|] == c;
  }

  /** `s.split(sep)`: the pieces between separators; never empty. */
  function Split(s: string, sep: char): (parts: seq<string>)
    ensures |parts| >= 1
    ensures forall i :: 0 <= i < |parts| ==> sep !in parts[i]
    decreases |s|
  {
    var i := IndexOf(s, sep);
    if i < 0 then [s]
    else
      var rest := Split(s[i + 1..], sep);
      var parts := [s[..i]] + rest;
      assert forall k :: 1 <= k < |parts| ==> parts[k] == rest[k - 1];
      parts
  }

  /** `parts.join(sep)`, the inverse of `Split`. */
  function Join(parts: seq<string>, sep: char): string
    requires |parts| >= 1
  {
    if |parts| == 1 then parts[0] else parts[0] + [sep] + Join(parts[1..], sep)
  }

  /** Splitting loses nothing: joining the lines back gives the text. */
  lemma {:induction false} JoinSplit(s: string, sep: char)
    ensures Join(Split(s, sep), sep) == s
    decreases |s|
  {
    var i := IndexOf(s, sep);
    if i < 0 {
      assert Split(s, sep) == [s];
    } else {
      var rest := Split(s[i + 1..], sep);
      assert Split(s, sep) == [s[..i]] + rest;
      JoinSplit(s[i + 1..], sep);
      JoinCons(s[..i], rest, sep);
      assert Join(Split(s, sep), sep) == s[..i] + [sep] + s[i + 1..];
      SplitAround(s, i);
    }
  }

  lemma JoinCons(head: string, rest: seq<string>, sep: char)
    requires |rest| >= 1
    ensures Join([head] + rest, sep) == head + [sep] + Join(rest, sep)
  {
    var parts := [head] + rest;
    assert parts[0] == head && parts[1..] == rest;
  }

  lemma SplitAround(s: string, i: int)
    requires 0 <= i < |s|
    ensures s == s[..i] + [s[i]] + s[i + 1..]
  {
  }

  /** Splitting finds exactly the separators that joining put in. */
  lemma {:induction false} SplitJoin(parts: seq<string>, sep: char)
    requires |parts| >= 1
    requires forall i :: 0 <= i < |parts| ==> sep !in parts[i]
    ensures Split(Join(parts, sep), sep) == parts
    decreases |parts|
  {
    if |parts| > 1 {
      var rest := Join(parts[1..], sep);
      assert Join(parts, sep) == parts[0] + [sep] + rest;
      SplitCons(parts[0], sep, rest);
      SplitJoin(parts[1..], sep);
      assert parts == [parts[0]] + parts[1..];
    }
  }

  lemma SplitCons(head: string, sep: char, rest: string)
    requires sep !in head
    ensures Split(head + [sep] + rest, sep) == [head] + Split(rest, sep)
  {
    var s := head + [sep] + rest;
    IndexOfAfter(head, sep, rest);
    assert s[..|head|] == head;
    assert s[|head| + 1..] == rest;
  }

  /** One `process.env[key] = val` produced by a line. */
  datatype Assignment = Assignment(key: string, value: string)

  /** Both ends carry the same quote, `"` or `'` (one character counts as both ends). */
  predicate IsQuoted(v: string) {
    |v| > 0 && ((v[0] == '"' && v[|v| - 1] == '"') || (v[0] == '\'' && v[|v| - 1] == '\''))
  }

  /** `val.slice(1, -1)` on a quoted value, which is empty for a lone quote. */
  function Unquote(v: string): (r: string)
    ensures !IsQuoted(v) ==> r == v
    ensures IsQuoted(v) && |v| >= 2 ==> v == [v[0]] + r + [v[0]]
    ensures IsQuoted(v) && |v| == 1 ==> r == ""
  {
    if !IsQuoted(v) then v
    else if |v| >= 2 then v[1..|v| - 1]
    else ""
  }

  /** Wrapping a value in a pair of matching quotes and unquoting it gives
      the value back. */
  lemma UnquoteQuoted(inner: string, quote: char)
    requires quote == '"' || quote == '\''
    ensures Unquote([quote] + inner + [quote]) == inner
  {
    var v := [quote] + inner + [quote];
    assert v[1..|v| - 1] == inner;
  }

  /** Without a matching pair of quotes the value is kept as it is. */
  lemma UnquoteUnquoted(v: string)
    requires v == [] || !((v[0] == '"' || v[0] == '\'') && v[|v| - 1] == v[0])
    ensures Unquote(v) == v
  {
  }

  /** Trimming never brings in a character that was not there. */
  lemma TrimAddsNothing(s: string, c: char)
    requires c !in s
    ensures c !in Trim(s)
  {
    var lead, tail := TrimSplitsPadding(s);
  }

  /** What one line of the file assigns, if anything: the line is trimmed,
      blank and `#` lines are skipped, and the line is cut at its first `=`
      unless that `=` is its first character; key and value are trimmed and
      the value loses one pair of matching quotes. A line assigns exactly
      when its trimmed form is non-empty, does not start with `#` and has
      an `=` after its first character. */
  function ParseLine(line: string): (a: Option<Assignment>)
    ensures a.Some? <==>
      var t := Trim(line);
      t != "" && t[0] != '#' && '=' in t && t[0] != '='
  {
    var t := Trim(line);
    if t == "" || t[0] == '#' then None
    else
      var idx := IndexOf(t, '=');
      if idx <= 0 then None
      else Some(Assignment(Trim(t[..idx]), Unquote(Trim(t[idx + 1..]))))
  }

  /** Every assigned key is non-empty, has no `=` and no surrounding whitespace. */
  lemma ParsedKeyIsClean(line: string)
    requires ParseLine(line).Some?
    ensures var key := ParseLine(line).value.key;
      key != "" && '=' !in key && Trim(key) == key
  {
    var t := Trim(line);
    var idx := IndexOf(t, '=');
    assert t[..idx][0] == t[0];
    TrimBlankIff(t[..idx]);
    assert !IsJsSpace(t[..idx][0]);
    TrimAddsNothing(t[..idx], '=');
    TrimIdempotent(t[..idx]);
  }

  /** A line whose trimmed form is `key=value`, with no `=` in `key`, assigns
      the trimmed, unquoted value to the trimmed key; `KEY = value` sets `KEY`. */
  lemma ParseTrimmed(line: string, key: string, value: string)
    requires Trim(line) == key + "=" + value
    requires key != "" && '=' !in key && key[0] != '#'
    ensures ParseLine(line) == Some(Assignment(Trim(key), Unquote(Trim(value))))
  {
    var t := Trim(line);
    IndexOfAfter(key, '=', value);
    assert t[0] == key[0];
    assert t[..|key|] == key;
    assert t[|key| + 1..] == value;
  }

  /** A value that is a single quote character becomes empty: the one
      character is both the opening and the closing quote. */
  lemma LoneQuoteBecomesEmpty(line: string, key: string, value: string, quote: char)
    requires quote == '"' || quote == '\''
    requires Trim(line) == key + "=" + value && Trim(value) == [quote]
    requires key != "" && '=' !in key && key[0] != '#'
    ensures ParseLine(line) == Some(Assignment(Trim(key), ""))
  {
    assert Unquote([quote]) == "";
    ParseTrimmed(line, key, value);
  }

  /** The parsed form of every line, in order. */
  function ParseLines(lines: seq<string>): (parsed: seq<Option<Assignment>>)
    ensures |parsed| == |lines|
    decreases |lines|
  {
    if lines == [] then []
    else ParseLines(lines[..|lines| - 1]) + [ParseLine(lines[|lines| - 1])]
  }

  lemma {:induction false} ParseLinesAt(lines: seq<string>, i: int)
    requires 0 <= i < |lines|
    ensures ParseLines(lines)[i] == ParseLine(lines[i])
    decreases |lines|
  {
    if i < |lines| - 1 {
      var init := lines[..|lines| - 1];
      ParseLinesAt(init, i);
      assert init[i] == lines[i];
    }
  }

  /** `process.env[key] = val` for an assignment; nothing otherwise. Only
      the assigned key changes, and no key is removed. */
  function Apply(env: map<string, string>, a: Option<Assignment>): (r: map<string, string>)
    ensures forall k {:trigger k in r} :: k in r <==> k in env || Sets(a, k)
    ensures forall k {:trigger r[k]} :: k in env && !Sets(a, k) ==> r[k] == env[k]
    ensures a.Some? ==> a.value.key in r && r[a.value.key] == a.value.value
  {
    match a
    case Some(Assignment(key, value)) => env[key := value]
    case None => env
  }

  /** The environment after the assignments, first to last. Keys are only
      ever added, and each added key is assigned by some line. */
  function ApplyAll(env: map<string, string>, parsed: seq<Option<Assignment>>): (r: map<string, string>)
    ensures forall k {:trigger k in r} :: k in env ==> k in r
    ensures forall k {:trigger k in r} :: k in r && k !in env ==> exists i :: 0 <= i < |parsed| && Sets(parsed[i], k)
    decreases |parsed|
  {
    if parsed == [] then env
    else
      var init := parsed[..|parsed| - 1];
      var before := ApplyAll(env, init);
      assert forall k :: k in before && k !in env ==> exists i :: 0 <= i < |parsed| && Sets(parsed[i], k) by {
        forall k | k in before && k !in env ensures exists i :: 0 <= i < |parsed| && Sets(parsed[i], k) {
          var i :| 0 <= i < |init| && Sets(init[i], k);
          assert parsed[i] == init[i];
        }
      }
      Apply(before, parsed[|parsed| - 1])
  }

  /** The environment after loading a file's content. No variable is
      removed, and every variable the file adds has a non-empty key without
      `=` or surrounding whitespace; in particular the empty key is never set. */
  function LoadEnv(env: map<string, string>, content: string): (r: map<string, string>)
    ensures forall k {:trigger k in r} :: k in env ==> k in r
    ensures forall k {:trigger k in r} :: k in r && k !in env ==> CleanKey(k)
  {
    var lines := Split(content, '\n');
    ParsedKeysClean(lines);
    ApplyAll(env, ParseLines(lines))
  }

  /** A key as the script can write it: non-empty, without `=` and
      without surrounding whitespace. */
  predicate CleanKey(k: string) {
    k != "" && '=' !in k && Trim(k) == k
  }

  /** Every key a line of `lines` assigns is clean. */
  lemma ParsedKeysClean(lines: seq<string>)
    ensures forall i :: 0 <= i < |lines| && ParseLines(lines)[i].Some? ==> CleanKey(ParseLines(lines)[i].value.key)
  {
    forall i | 0 <= i < |lines| && ParseLines(lines)[i].Some? ensures CleanKey(ParseLines(lines)[i].value.key) {
      ParseLinesAt(lines, i);
      ParsedKeyIsClean(lines[i]);
    }
  }

  predicate Sets(a: Option<Assignment>, key: string) {
    a.Some? && a.value.key == key
  }

  /** The last line that assigns a key decides its value. */
  lemma {:induction false} LastAssignmentWins(env: map<string, string>, parsed: seq<Option<Assignment>>, i: int, key: string)
    requires 0 <= i < |parsed| && Sets(parsed[i], key)
    requires forall j :: i < j < |parsed| ==> !Sets(parsed[j], key)
    ensures key in ApplyAll(env, parsed)
    ensures ApplyAll(env, parsed)[key] == parsed[i].value.value
    decreases |parsed|
  {
    var init := parsed[..|parsed| - 1];
    if i < |parsed| - 1 {
      forall j | i < j < |init| ensures !Sets(init[j], key) {
        assert init[j] == parsed[j];
      }
      assert init[i] == parsed[i];
      LastAssignmentWins(env, init, i, key);
    }
  }

  /** A key no line assigns keeps its presence and value. */
  lemma {:induction false} UnassignedKeyKept(env: map<string, string>, parsed: seq<Option<Assignment>>, key: string)
    requires forall j :: 0 <= j < |parsed| ==> !Sets(parsed[j], key)
    ensures key in ApplyAll(env, parsed) <==> key in env
    ensures key in env ==> ApplyAll(env, parsed)[key] == env[key]
    decreases |parsed|
  {
    if parsed != [] {
      var init := parsed[..|parsed| - 1];
      forall j | 0 <= j < |init| ensures !Sets(init[j], key) {
        assert init[j] == parsed[j];
      }
      UnassignedKeyKept(env, init, key);
    }
  }

  /** One call of the `forEach` callback: the line's assignment, if any,
      is written into `env`. */
  method ApplyLine(env: map<string, string>, line: string) returns (result: map<string, string>)
    ensures result == Apply(env, ParseLine(line))
  {
    var assignment := ReadLine(line);
    result := env;
    if assignment.Some? {
      result := result[assignment.value.key := assignment.value.value];
    }
  }

  lemma ApplyLinesSnoc(env: map<string, string>, lines: seq<string>, i: int)
    requires 0 <= i < |lines|
    ensures ApplyAll(env, ParseLines(lines[..i + 1])) == Apply(ApplyAll(env, ParseLines(lines[..i])), ParseLine(lines[i]))
  {
    var done := ParseLines(lines[..i]);
    assert lines[..i + 1][..i] == lines[..i];
    assert ParseLines(lines[..i + 1]) == done + [ParseLine(lines[i])];
    assert (done + [ParseLine(lines[i])])[..i] == done;
  }

  /** The `forEach` over the file's lines, writing each assignment into `env`. */
  method LoadLines(env: map<string, string>, content: string) returns (result: map<string, string>)
    ensures result == LoadEnv(env, content)
  {
    var lines := Split(content, '\n');
    result := env;
    var i := 0;
    assert lines[..0] == [];
    while i < |lines|
      invariant 0 <= i <= |lines|
      invariant result == ApplyAll(env, ParseLines(lines[..i]))
    {
      ApplyLinesSnoc(env, lines, i);
      result := ApplyLine(result, lines[i]);
      i := i + 1;
    }
    assert lines[..|lines|] == lines;
    assert result == ApplyAll(env, ParseLines(lines));
  }

  /** `process.env`, the dictionary the script writes into. */
  class ProcessEnv {
    var vars: map<string, string>

    constructor (initial: map<string, string>)
      ensures vars == initial
    {
      vars := initial;
    }

    /** Loading `.env.local` when it exists: its content is applied line by line. */
    method LoadDotEnv(content: string)
      modifies this
      ensures vars == LoadEnv(old(vars), content)
    {
      vars := LoadLines(vars, content);
    }
  }

  /** The callback's statements for one line, in the script's order: the
      statement-level rendering of `ParseLine`, proved to compute it. */
  method ReadLine(line: string) returns (a: Option<Assignment>)
    ensures a == ParseLine(line)
  {
    var trimmed := Trim(line);
    if trimmed == "" || trimmed[0] == '#' {
      return None;
    }
    var idx := IndexOf(trimmed, '=');
    if idx <= 0 {
      return None;
    }
    var key := Trim(trimmed[..idx]);
    var val := Trim(trimmed[idx + 1..]);
    ghost var raw := val;
    if IsQuoted(val) {
      val := if |val| >= 2 then val[1..|val| - 1] else "";
    }
    assert val == Unquote(raw);
    a := Some(Assignment(key, val));
  }
}

=== FILE: task_card.dfy ===
/**
 * One task card: a completion toggle, three priority buttons and a delete
 * button. Each button issues one request unless a request of the card is
 * already in flight, and the card's `loading` and `error` state follow the
 * request until it settles.
 */
module TaskCardView {
  import opened Base
  import opened Api

  /** The button that started the request in flight. */
  datatype Action = Toggle | ChangePriority | Remove

  /** The text shown when a request fails without an `Error` message. It is
      never empty, so the card's `error &&` test always shows it. */
  function Fallback(a: Action): (text: string)
    ensures |text| > |"Failed to "| && text[..|"Failed to "|] == "Failed to "
  {
    match a
    case Toggle => "Failed to update"
    case ChangePriority => "Failed to update priority"
    case Remove => "Failed to delete"
  }

  /** Each handler has its own fallback text, so the text tells which
      action failed. */
  lemma FallbackNamesAction(a: Action, b: Action)
    ensures Fallback(a) == Fallback(b) <==> a == b
  {
  }

  /** The update the toggle sends: same title, flipped completion and no
      priority field. */
  function ToggleUpdate(t: Task): TaskUpdate {
    TaskUpdate(t.title, !t.completed, None)
  }

  /** The update a priority button sends: same title and completion, the
      chosen priority. */
  function PriorityUpdate(t: Task, p: Priority): TaskUpdate {
    TaskUpdate(t.title, t.completed, Some(p))
  }

  class TaskCard {
    var task: Task
    var userId: string
    var loading: bool
    var error: Option<string>
    /** Which handler is awaiting its request; it picks the fallback text. */
    var inFlight: Option<Action>

    ghost predicate Valid()
      reads this
    {
      && (loading <==> inFlight.Some?)
      && (loading ==> error == None)
    }

    constructor (task: Task, userId: string)
      ensures Valid()
      ensures this.task == task && this.userId == userId
      ensures !loading && error == None && inFlight == None
    {
      this.task := task;
      this.userId := userId;
      loading := false;
      error := None;
      inFlight := None;
    }

    /** The parent re-renders the card with a fresh copy of the task. */
    method ReceiveTask(t: Task)
      requires Valid()
      modifies this
      ensures Valid()
      ensures task == t && userId == old(userId)
      ensures loading == old(loading) && error == old(error) && inFlight == old(inFlight)
    {
      task := t;
    }

    /** The common entry of the three handlers: ignored while loading;
        otherwise the error is cleared, loading starts and the request goes out. */
    method Start(a: Action, r: Request) returns (sent: Option<Request>)
      requires Valid()
      modifies this
      ensures Valid()
      ensures task == old(task) && userId == old(userId)
      ensures old(loading) ==>
        sent == None && loading && error == old(error) && inFlight == old(inFlight)
      ensures !old(loading) ==>
        sent == Some(r) && loading && error == None && inFlight == Some(a)
    {
      if loading {
        return None;
      }
      error := None;
      loading := true;
      inFlight := Some(a);
      sent := Some(r);
    }

    /** `handleToggleCompleted`. */
    method HandleToggleCompleted() returns (sent: Option<Request>)
      requires Valid()
      modifies this
      ensures Valid()
      ensures task == old(task) && userId == old(userId)
      ensures old(loading) ==>
        sent == None && loading && error == old(error) && inFlight == old(inFlight)
      ensures !old(loading) ==>
        && sent == Some(UpdateTask(userId, task.id, TaskUpdate(task.title, !task.completed, None)))
        && loading && error == None && inFlight == Some(Toggle)
    {
      sent := Start(Toggle, UpdateTask(userId, task.id, ToggleUpdate(task)));
    }

    /** `handlePriorityChange`. */
    method HandlePriorityChange(p: Priority) returns (sent: Option<Request>)
      requires Valid()
      modifies this
      ensures Valid()
      ensures task == old(task) && userId == old(userId)
      ensures old(loading) ==>
        sent == None && loading && error == old(error) && inFlight == old(inFlight)
      ensures !old(loading) ==>
        && sent == Some(UpdateTask(userId, task.id, TaskUpdate(task.title, task.completed, Some(p))))
        && loading && error == None && inFlight == Some(ChangePriority)
    {
      sent := Start(ChangePriority, UpdateTask(userId, task.id, PriorityUpdate(task, p)));
    }

    /** `handleDelete`. */
    method HandleDelete() returns (sent: Option<Request>)
      requires Valid()
      modifies this
      ensures Valid()
      ensures task == old(task) && userId == old(userId)
      ensures old(loading) ==>
        sent == None && loading && error == old(error) && inFlight == old(inFlight)
      ensures !old(loading) ==>
        && sent == Some(DeleteTask(userId, task.id))
        && loading && error == None && inFlight == Some(Remove)
    {
      sent := Start(Remove, DeleteTask(userId, task.id));
    }

    /** The request in flight settles. Success asks the parent to reload
        (`onTaskChange`); failure shows the message or the handler's
        fallback. Loading ends either way. */
    method Settle(outcome: Outcome<()>) returns (notify: bool)
      requires Valid() && loading
      modifies this
      ensures Valid() && !loading && inFlight == None
      ensures task == old(task) && userId == old(userId)
      ensures notify <==> outcome.Succeeded?
      ensures outcome.Succeeded? ==> error == None
      ensures outcome.Failed? ==> error == Some(ErrorText(outcome.message, Fallback(old(inFlight).value)))
    {
      var action := inFlight.value;
      notify := false;
      match outcome {
        case Succeeded(_) =>
          notify := true;
        case Failed(message) =>
          error := Some(ErrorText(message, Fallback(action)));
      }
      loading := false;
      inFlight := None;
    }
  }

  /** Clicking twice before the first request settles sends one request:
      the second click finds the card loading. */
  method DoubleClick(t: Task, userId: string) returns (first: Option<Request>, second: Option<Request>)
    ensures first == Some(UpdateTask(userId, t.id, TaskUpdate(t.title, !t.completed, None)))
    ensures second == None
  {
    var card := new TaskCard(t, userId);
    first := card.HandleToggleCompleted();
    second := card.HandleDelete();
  }
}

=== FILE: task_list.dfy ===
/**
 * The task list component: it fetches the user's tasks whenever its
 * `(userId, refreshTrigger)` props change and shows a spinner, an error,
 * an empty notice or the cards. Every run of the fetch effect gets a
 * generation number; the effect's `cancelled` flag is true exactly for the
 * runs that are no longer the latest one (or once the list is unmounted).
 */
module TaskListView {
  import opened Base
  import opened Api

  const LoadFailed := "Failed to load tasks"

  /** What the component renders. */
  datatype View = Spinner | Alert(message: string) | EmptyNotice | Cards(tasks: seq<Task>)

  /** The rendering decision: loading first, then a non-empty error, then
      the empty notice, then one card per task. */
  function SelectView(loading: bool, error: Option<string>, tasks: seq<Task>): (v: View)
    ensures v.Spinner? <==> loading
    ensures v.Alert? <==> !loading && error.Some? && error.value != ""
    ensures v.Alert? ==> v.message == error.value
    ensures v.EmptyNotice? <==> !loading && !(error.Some? && error.value != "") && tasks == []
    ensures v.Cards? ==> v.tasks == tasks && |v.tasks| > 0
  {
    if loading then Spinner
    else if error.Some? && error.value != "" then Alert(error.value)
    else if |tasks| == 0 then EmptyNotice
    else Cards(tasks)
  }

  class TaskListController {
    var userId: string
    var refreshTrigger: int
    var tasks: seq<Task>
    var loading: bool
    var error: Option<string>
    var mounted: bool
    /** The request each run of the effect issued, in order; the last run
        is the live one. */
    var fetches: seq<Request>
    /** The runs whose promise has settled. */
    ghost var settled: set<nat>

    /** The live run is the last one, it fetched for the current user, and
        the spinner shows exactly while it is outstanding. */
    ghost predicate Valid()
      reads this
    {
      && |fetches| >= 1
      && fetches[|fetches| - 1] == GetTasks(userId)
      && (forall g :: g in settled ==> g < |fetches|)
      && (mounted ==> (loading <==> |fetches| - 1 !in settled))
      && (loading ==> error == None)
    }

    /** The number of the live run. */
    function Current(): int
      reads this
    {
      |fetches| - 1
    }

    /** Mounting: the initial state, then the effect's first run. */
    constructor (userId: string, refreshTrigger: int)
      ensures Valid()
      ensures this.userId == userId && this.refreshTrigger == refreshTrigger
      ensures tasks == [] && loading && error == None && mounted
      ensures fetches == [GetTasks(userId)] && settled == {}
    {
      this.userId := userId;
      this.refreshTrigger := refreshTrigger;
      tasks := [];
      loading := true;
      error := None;
      mounted := true;
      fetches := [GetTasks(userId)];
      settled := {};
    }

    /** A render with new props. When a dependency changed, the previous
        run is cancelled and a new one starts: loading, no error, one more
        fetch. Otherwise nothing happens. */
    method SetProps(newUserId: string, newTrigger: int)
      requires Valid() && mounted
      modifies this
      ensures Valid() && mounted
      ensures userId == newUserId && refreshTrigger == newTrigger && settled == old(settled) && tasks == old(tasks)
      ensures (newUserId, newTrigger) == old((userId, refreshTrigger)) ==>
        loading == old(loading) && error == old(error) && fetches == old(fetches)
      ensures (newUserId, newTrigger) != old((userId, refreshTrigger)) ==>
        loading && error == None && fetches == old(fetches) + [GetTasks(newUserId)]
    {
      if newUserId == userId && newTrigger == refreshTrigger {
        return;
      }
      userId := newUserId;
      refreshTrigger := newTrigger;
      loading := true;
      error := None;
      fetches := fetches + [GetTasks(newUserId)];
    }

    /** Unmounting runs the cleanup of the live run. */
    method Unmount()
      requires Valid()
      modifies this
      ensures Valid() && !mounted
      ensures userId == old(userId) && refreshTrigger == old(refreshTrigger) && tasks == old(tasks)
      ensures loading == old(loading) && error == old(error) && fetches == old(fetches) && settled == old(settled)
    {
      mounted := false;
    }

    /** Run `g`'s promise settles; `then`/`catch` and `finally` act together.
        A cancelled run changes nothing the user sees. The live run replaces
        the tasks wholesale on success, or sets the error and keeps the
        tasks on failure, and in both cases ends loading. */
    method Settle(g: nat, outcome: Outcome<seq<Task>>)
      requires Valid() && g < |fetches| && g !in settled
      modifies this
      ensures Valid()
      ensures settled == old(settled) + {g}
      ensures userId == old(userId) && refreshTrigger == old(refreshTrigger)
      ensures fetches == old(fetches) && mounted == old(mounted)
      ensures !(mounted && g == Current()) ==>
        tasks == old(tasks) && loading == old(loading) && error == old(error)
      ensures mounted && g == Current() ==> !loading
      ensures mounted && g == Current() && outcome.Succeeded? ==>
        tasks == outcome.value && error == None
      ensures mounted && g == Current() && outcome.Failed? ==>
        tasks == old(tasks) && error == Some(ErrorText(outcome.message, LoadFailed))
    {
      settled := settled + {g};
      var cancelled := !mounted || g != |fetches| - 1;
      if !cancelled {
        match outcome
        case Succeeded(data) =>
          tasks := data;
        case Failed(message) =>
          error := Some(ErrorText(message, LoadFailed));
      }
      if !cancelled {
        loading := false;
      }
    }

    /** What the component renders now. */
    function Render(): View
      reads this
    {
      SelectView(loading, error, tasks)
    }
  }

  /** The user switches from `first` to `second` before the first fetch
      answers; whichever response arrives last, the list ends up showing
      exactly the second user's tasks. */
  method SupersededFetch(first: string, second: string, stale: seq<Task>, latest: seq<Task>, staleFirst: bool)
    returns (shown: View)
    requires first != second
    ensures shown == SelectView(false, None, latest)
    ensures |latest| > 0 ==> shown == Cards(latest)
  {
    var list := new TaskListController(first, 0);
    list.SetProps(second, 0);
    assert list.Current() == 1;
    if staleFirst {
      list.Settle(0, Succeeded(stale));
      list.Settle(1, Succeeded(latest));
    } else {
      list.Settle(1, Succeeded(latest));
      list.Settle(0, Succeeded(stale));
    }
    shown := list.Render();
  }

  /** A failed reload keeps the previous tasks but shows the error in
      their place; the fallback text is used when the rejection is not an
      `Error`. */
  method FailedReload(userId: string, loaded: seq<Task>) returns (kept: seq<Task>, shown: View)
    ensures kept == loaded
    ensures shown == Alert(LoadFailed)
  {
    var list := new TaskListController(userId, 0);
    list.Settle(0, Succeeded(loaded));
    list.SetProps(userId, 1);
    list.Settle(1, Failed(None));
    kept := list.tasks;
    shown := list.Render();
  }
}

=== FILE: task_store.dfy ===
/**
 * The backend's task endpoints: a per-user table of tasks with list,
 * create, update and delete. The database is an in-memory map from id to
 * task; `nextId` plays the part of the autoincrement column.
 */
module TaskStore {
  import opened Base
  import opened Text
  import opened Api

  const MaxTitleLength: nat := 200
  const DefaultPriority: string := "Medium"
  const ValidPriorities: seq<string> := ["High", "Medium", "Low"]

  /** An `HTTPException`: status code and detail text. */
  datatype HttpError = HttpError(status: int, detail: string)

  const TitleRequired := HttpError(400, "Title required (1-200 chars)")
  const BadPriority := HttpError(400, "Priority must be one of: High, Medium, Low")
  const TaskNotFound := HttpError(404, "Task not found")
  const DeletedMessage := "Task deleted"

  /** The request body once pydantic has filled in the defaults of `TaskCreate`. */
  datatype TaskCreate = TaskCreate(title: string, completed: bool, priority: string)

  function WithDefaults(b: Body): (c: TaskCreate)
    ensures c.title == b.title
    ensures c.completed <==> b.completed == Some(true)
    ensures b.priority.Some? ==> c.priority == b.priority.value
    ensures b.priority.None? ==> c.priority == DefaultPriority
    ensures ValidPriority(c.priority) <==> b.priority.None? || ValidPriority(b.priority.value)
  {
    TaskCreate(
      b.title,
      if b.completed.Some? then b.completed.value else false,
      if b.priority.Some? then b.priority.value else DefaultPriority)
  }

  /** The title rule: 1 to 200 characters, counted before any trimming. */
  predicate ValidTitle(title: string) {
    1 <= |title| <= MaxTitleLength
  }

  predicate ValidPriority(p: string) {
    p in ValidPriorities
  }

  /** The accepted priority strings are exactly the names of the frontend's priorities. */
  lemma ValidPriorityIsName(p: string)
    ensures ValidPriority(p) <==> exists q: Priority :: q.Name() == p
  {
    if ValidPriority(p) {
      var q := if p == "High" then High else if p == "Medium" then Medium else Low;
      assert q.Name() == p;
    }
  }

  /** The table invariant: ids are below `nextId` and match their key, and
      every stored task has a valid title and priority. */
  ghost predicate WellFormed(db: map<int, Task>, nextId: int) {
    && 1 <= nextId
    && forall id :: id in db ==>
      && 1 <= id < nextId
      && db[id].id == id
      && ValidTitle(db[id].title)
      && ValidPriority(db[id].priority)
  }

  /** The task `userId` may touch: present and owned by the caller. */
  predicate Owns(db: map<int, Task>, userId: string, taskId: int) {
    taskId in db && db[taskId].userId == userId
  }

  // ---------------------------------------------------------------- listing

  /** A query parameter that Python treats as true: present and non-empty. */
  predicate Filled(o: Option<string>) {
    o.Some? && o.value != ""
  }

  /** The WHERE clause of `list_tasks`. */
  predicate Matches(t: Task, userId: string, title: Option<string>, priority: Option<string>)
    ensures Matches(t, userId, title, priority) ==> t.userId == userId
    ensures Matches(t, userId, title, priority) && Filled(title) ==> |title.value| <= |t.title|
    ensures !Filled(title) && !Filled(priority) ==> (Matches(t, userId, title, priority) <==> t.userId == userId)
  {
    && t.userId == userId
    && (Filled(title) ==> ContainsIgnoringCase(t.title, title.value))
    && (Filled(priority) ==> t.priority == priority.value)
  }

  /** The matching tasks whose ids lie in [1, upTo), in ascending id order
      (the order in which the autoincrement column handed them out). */
  function Scan(db: map<int, Task>, upTo: int, userId: string, title: Option<string>, priority: Option<string>): (r: seq<Task>)
    ensures forall t :: t in r ==> t in db.Values && Matches(t, userId, title, priority)
    ensures forall k :: 1 <= k < upTo && k in db && Matches(db[k], userId, title, priority) ==> db[k] in r
    decreases upTo
  {
    if upTo <= 1 then []
    else
      var k := upTo - 1;
      Scan(db, k, userId, title, priority)
        + (if k in db && Matches(db[k], userId, title, priority) then [db[k]] else [])
  }

  /** `list_tasks`: the caller's tasks, narrowed by a case-insensitive title
      search and by exact priority when those parameters are non-empty; a
      non-empty priority outside the set is a 400. */
  function ListTasks(db: map<int, Task>, nextId: int, userId: string, title: Option<string>, priority: Option<string>): (r: Result<seq<Task>, HttpError>)
    ensures r.Failure? <==> Filled(priority) && !ValidPriority(priority.value)
    ensures r.Failure? ==> r.error == BadPriority
    ensures r.Success? ==> forall t :: t in r.value ==> t in db.Values && Matches(t, userId, title, priority)
  {
    if Filled(priority) && priority.value !in ValidPriorities then Failure(BadPriority)
    else Success(Scan(db, nextId, userId, title, priority))
  }

  /** On a well-formed table the listing holds every matching task and
      nothing else, each once, in ascending id order. */
  lemma ListTasksComplete(db: map<int, Task>, nextId: int, userId: string, title: Option<string>, priority: Option<string>)
    requires WellFormed(db, nextId)
    requires !(Filled(priority) && !ValidPriority(priority.value))
    ensures ListTasks(db, nextId, userId, title, priority).Success?
    ensures forall t :: t in ListTasks(db, nextId, userId, title, priority).value <==>
      t in db.Values && Matches(t, userId, title, priority)
    ensures IdsIncrease(ListTasks(db, nextId, userId, title, priority).value)
  {
    ScanFollowsIds(db, nextId, userId, title, priority);
    var r := ListTasks(db, nextId, userId, title, priority).value;
    forall t | t in db.Values && Matches(t, userId, title, priority) ensures t in r {
      var k :| k in db && db[k] == t;
    }
  }

  /** Ids strictly increase along `s`: no id occurs twice. */
  predicate IdsIncrease(s: seq<Task>) {
    forall i, j :: 0 <= i < j < |s| ==> s[i].id < s[j].id
  }

  /** A scan lists each task under its own id, in strictly increasing id
      order, so no task is listed twice. */
  lemma {:induction false} ScanFollowsIds(db: map<int, Task>, upTo: int, userId: string, title: Option<string>, priority: Option<string>)
    requires forall k :: k in db ==> db[k].id == k
    ensures IdsIncrease(Scan(db, upTo, userId, title, priority))
    ensures forall t :: t in Scan(db, upTo, userId, title, priority) ==> t.id in db && db[t.id] == t
    ensures forall t :: t in Scan(db, upTo, userId, title, priority) ==> t.id < upTo
    decreases upTo
  {
    if upTo > 1 {
      var prev := Scan(db, upTo - 1, userId, title, priority);
      var r := Scan(db, upTo, userId, title, priority);
      ScanFollowsIds(db, upTo - 1, userId, title, priority);
      forall i, j | 0 <= i < j < |r| ensures r[i].id < r[j].id {
        if j >= |prev| {
          assert r[j] == db[upTo - 1] && r[j].id == upTo - 1;
          assert r[i] == prev[i] && prev[i] in prev && prev[i].id < upTo - 1;
        } else {
          assert r[i] == prev[i] && r[j] == prev[j] && prev[i].id < prev[j].id;
        }
      }
    }
  }

  /** An id that is not in the table appears in no listing. With the
      handlers' promise that an id once removed never returns, a deleted
      task stays out of every later listing. */
  lemma AbsentIdNotListed(db: map<int, Task>, nextId: int, taskId: int, userId: string, title: Option<string>, priority: Option<string>)
    requires WellFormed(db, nextId) && taskId !in db
    ensures ListTasks(db, nextId, userId, title, priority).Success? ==>
      forall t :: t in ListTasks(db, nextId, userId, title, priority).value ==> t.id != taskId
  {
    ScanFollowsIds(db, nextId, userId, title, priority);
  }

  // ---------------------------------------------------------------- table

  /** The task table. Every handler keeps `WellFormed`. */
  class TaskTable {
    var db: map<int, Task>
    var nextId: int

    ghost predicate Valid()
      reads this
    {
      WellFormed(db, nextId)
    }

    constructor ()
      ensures Valid() && db == map[] && nextId == 1
    {
      db := map[];
      nextId := 1;
    }

    /** `create_task`: validate the defaulted body, then insert it under a
        fresh id for the path's `userId`. */
    method Create(userId: string, body: Body) returns (r: Result<Task, HttpError>)
      requires Valid()
      modifies this
      ensures Valid()
      ensures forall id :: id < old(nextId) && id !in old(db) ==> id !in db
      ensures !ValidTitle(body.title) ==>
        r == Failure(TitleRequired) && db == old(db) && nextId == old(nextId)
      ensures ValidTitle(body.title) && !ValidPriority(WithDefaults(body).priority) ==>
        r == Failure(BadPriority) && db == old(db) && nextId == old(nextId)
      ensures ValidTitle(body.title) && ValidPriority(WithDefaults(body).priority) ==>
        && r.Success?
        && r.value.id == old(nextId) && r.value.id !in old(db)
        && nextId == old(nextId) + 1
        && r.value == Task(r.value.id, userId, body.title, WithDefaults(body).completed, WithDefaults(body).priority)
        && db == old(db)[r.value.id := r.value]
    {
      var c := WithDefaults(body);
      if c.title == "" || |c.title| > MaxTitleLength {
        return Failure(TitleRequired);
      }
      if c.priority !in ValidPriorities {
        return Failure(BadPriority);
      }
      var task := Task(nextId, userId, c.title, c.completed, c.priority);
      db := db[nextId := task];
      nextId := nextId + 1;
      r := Success(task);
    }

    /** `update_task`: the 404 checks come first, then validation, then the
        three fields are overwritten. The body is a `TaskCreate`, so an
        omitted priority becomes "Medium" and an omitted completed false. */
    method Update(userId: string, taskId: int, body: Body) returns (r: Result<Task, HttpError>)
      requires Valid()
      modifies this
      ensures Valid() && nextId == old(nextId)
      ensures forall id :: id < old(nextId) && id !in old(db) ==> id !in db
      ensures !Owns(old(db), userId, taskId) ==>
        r == Failure(TaskNotFound) && db == old(db)
      ensures Owns(old(db), userId, taskId) && !ValidTitle(body.title) ==>
        r == Failure(TitleRequired) && db == old(db)
      ensures Owns(old(db), userId, taskId) && ValidTitle(body.title) && !ValidPriority(WithDefaults(body).priority) ==>
        r == Failure(BadPriority) && db == old(db)
      ensures Owns(old(db), userId, taskId) && ValidTitle(body.title) && ValidPriority(WithDefaults(body).priority) ==>
        && r == Success(Task(taskId, userId, body.title, WithDefaults(body).completed, WithDefaults(body).priority))
        && db == old(db)[taskId := r.value]
    {
      if taskId !in db {
        return Failure(TaskNotFound);
      }
      var task := db[taskId];
      if task.userId != userId {
        return Failure(TaskNotFound);
      }
      var c := WithDefaults(body);
      if c.title == "" || |c.title| > MaxTitleLength {
        return Failure(TitleRequired);
      }
      if c.priority !in ValidPriorities {
        return Failure(BadPriority);
      }
      task := task.(title := c.title);
      task := task.(completed := c.completed);
      task := task.(priority := c.priority);
      db := db[taskId := task];
      r := Success(task);
    }

    /** `delete_task`: the same 404 checks, then the row is removed. */
    method Delete(userId: string, taskId: int) returns (r: Result<string, HttpError>)
      requires Valid()
      modifies this
      ensures Valid() && nextId == old(nextId)
      ensures forall id :: id < old(nextId) && id !in old(db) ==> id !in db
      ensures !Owns(old(db), userId, taskId) ==>
        r == Failure(TaskNotFound) && db == old(db)
      ensures Owns(old(db), userId, taskId) ==>
        r == Success(DeletedMessage) && db == old(db) - {taskId} && taskId !in db
    {
      if taskId !in db {
        return Failure(TaskNotFound);
      }
      if db[taskId].userId != userId {
        return Failure(TaskNotFound);
      }
      db := db - {taskId};
      r := Success(DeletedMessage);
    }
  }
}

=== FILE: text.dfy ===
/**
 * String helpers shared by the frontend and the backend: JavaScript's
 * `String.prototype.trim`, ASCII lower-casing and substring search.
 */
module Text {

  /** The characters JavaScript's `trim` removes: WhiteSpace (including every
      Unicode space separator) and LineTerminator. */
  predicate IsJsSpace(c: char) {
    || '\t' <= c <= '\r'
    || c == ' ' || c == '\U{00A0}' || c == '\U{1680}'
    || '\U{2000}' <= c <= '\U{200A}'
    || c == '\U{2028}' || c == '\U{2029}' || c == '\U{202F}' || c == '\U{205F}'
    || c == '\U{3000}' || c == '\U{FEFF}'
  }

  predicate AllSpace(s: string) {
    forall k {:trigger IsJsSpace(s[k])} :: 0 <= k < |s| ==> IsJsSpace(s[k])
  }

  /** Drops leading whitespace: the result is a suffix of `s` that does
      not start with whitespace. */
  function TrimStart(s: string): (r: string)
    ensures |r| <= |s| && r == s[|s| - |r|..]
    ensures r != [] ==> !IsJsSpace(r[0])
    decreases |s|
  {
    if |s| > 0 && IsJsSpace(s[0]) then TrimStart(s[1..]) else s
  }

  /** Everything `TrimStart` drops is whitespace. */
  lemma {:induction false} TrimStartDropsSpace(s: string)
    ensures AllSpace(s[..|s| - |TrimStart(s)|])
    decreases |s|
  {
    if |s| > 0 && IsJsSpace(s[0]) {
      TrimStartDropsSpace(s[1..]);
      var n := |s| - |TrimStart(s)|;
      forall k | 0 <= k < n ensures IsJsSpace(s[..n][k]) {
        if k > 0 { assert s[..n][k] == s[1..][..n - 1][k - 1]; }
      }
    }
  }

  /** Drops trailing whitespace: the result is a prefix of `s` that does
      not end with whitespace. */
  function TrimEnd(s: string): (r: string)
    ensures |r| <= |s| && r == s[..|r|]
    ensures r != [] ==> !IsJsSpace(r[|r| - 1])
    decreases |s|
  {
    if |s| > 0 && IsJsSpace(s[|s| - 1]) then TrimEnd(s[..|s| - 1]) else s
  }

  /** Everything `TrimEnd` drops is whitespace. */
  lemma {:induction false} TrimEndDropsSpace(s: string)
    ensures AllSpace(s[|TrimEnd(s)|..])
    decreases |s|
  {
    if |s| > 0 && IsJsSpace(s[|s| - 1]) {
      var init := s[..|s| - 1];
      TrimEndDropsSpace(init);
      var n := |TrimEnd(s)|;
      forall k | 0 <= k < |s| - n ensures IsJsSpace(s[n..][k]) {
        if k < |s| - 1 - n { assert s[n..][k] == init[n..][k]; }
      }
    }
  }

  /** `s.trim()`. */
  function Trim(s: string): (r: string)
    ensures |r| <= |s|
    ensures r != [] ==> !IsJsSpace(r[0]) && !IsJsSpace(r[|r| - 1])
  {
    TrimEnd(TrimStart(s))
  }

  /** Every string is its trimmed form padded with whitespace on both sides. */
  lemma TrimSplitsPadding(s: string) returns (lead: string, tail: string)
    ensures AllSpace(lead) && AllSpace(tail) && s == lead + Trim(s) + tail
  {
    var t := TrimStart(s);
    var r := TrimEnd(t);
    TrimStartDropsSpace(s);
    TrimEndDropsSpace(t);
    lead, tail := s[..|s| - |t|], t[|r|..];
    SplitAt(s, |s| - |t|);
    SplitAt(t, |r|);
    assert s == lead + t && t == r + tail;
    assert lead + (r + tail) == lead + r + tail;
  }

  /** Trimming leaves nothing exactly when the string is all whitespace. */
  lemma TrimBlankIff(s: string)
    ensures Trim(s) == [] <==> AllSpace(s)
  {
    var lead, tail := TrimSplitsPadding(s);
    if Trim(s) == [] {
      assert s == lead + tail;
      forall k | 0 <= k < |s| ensures IsJsSpace(s[k]) {
        if k < |lead| { assert s[k] == lead[k]; } else { assert s[k] == tail[k - |lead|]; }
      }
    }
  }

  lemma SplitAt(s: string, n: nat)
    requires n <= |s|
    ensures s == s[..n] + s[n..]
  {
  }

  /** Trim keeps a string whose ends are not whitespace. */
  lemma TrimUnchanged(s: string)
    requires s != [] && !IsJsSpace(s[0]) && !IsJsSpace(s[|s| - 1])
    ensures Trim(s) == s
  {
  }

  /** `trim` removes exactly the leading and trailing whitespace: if `s` is
      whitespace, then a core that neither starts nor ends with whitespace,
      then whitespace, the core is what `Trim` returns. */
  lemma {:induction false} TrimOfPadded(lead: string, core: string, tail: string)
    requires AllSpace(lead) && AllSpace(tail)
    requires core != [] ==> !IsJsSpace(core[0]) && !IsJsSpace(core[|core| - 1])
    ensures Trim(lead + core + tail) == core
  {
    var s := lead + core + tail;
    if core == [] {
      assert s == lead + tail;
      assert AllSpace(s) by {
        forall k | 0 <= k < |s| ensures IsJsSpace(s[k]) {
          if k >= |lead| { assert s[k] == tail[k - |lead|]; }
        }
      }
      TrimBlankIff(s);
    } else {
      assert s == lead + (core + tail);
      TrimStartOfPadded(lead, core + tail);
      TrimEndOfPadded(core, tail);
    }
  }

  lemma {:induction false} TrimStartOfPadded(lead: string, rest: string)
    requires AllSpace(lead)
    requires rest != [] ==> !IsJsSpace(rest[0])
    ensures TrimStart(lead + rest) == rest
    decreases |lead|
  {
    if lead != [] {
      assert (lead + rest)[1..] == lead[1..] + rest;
      TrimStartOfPadded(lead[1..], rest);
    }
  }

  lemma {:induction false} TrimEndOfPadded(rest: string, tail: string)
    requires AllSpace(tail)
    requires rest != [] ==> !IsJsSpace(rest[|rest| - 1])
    ensures TrimEnd(rest + tail) == rest
    decreases |tail|
  {
    if tail != [] {
      assert (rest + tail)[..|rest + tail| - 1] == rest + tail[..|tail| - 1];
      TrimEndOfPadded(rest, tail[..|tail| - 1]);
    } else {
      assert rest + tail == rest;
    }
  }

  /** Trimming twice is trimming once. */
  lemma TrimIdempotent(s: string)
    ensures Trim(Trim(s)) == Trim(s)
  {
    var t := Trim(s);
    if t != [] {
      TrimUnchanged(t);
    }
  }

  /** ASCII lower-casing of one character; every other character is kept. */
  function LowerChar(c: char): char {
    if 'A' <= c <= 'Z' then (c as int + 32) as char else c
  }

  function Lower(s: string): string {
    seq(|s|, k requires 0 <= k < |s| => LowerChar(s[k]))
  }

  /** Two characters fold to the same one exactly when they are equal or
      are the capital and the small form of one ASCII letter. */
  lemma LowerCharSame(a: char, b: char)
    ensures LowerChar(a) == LowerChar(b) <==>
      || a == b
      || ('A' <= a <= 'Z' && b as int == a as int + 32)
      || ('A' <= b <= 'Z' && a as int == b as int + 32)
  {
  }

  /** `a` and `b` spell the same text up to the case of ASCII letters. */
  ghost predicate SameIgnoringCase(a: string, b: string) {
    |a| == |b| && forall k :: 0 <= k < |a| ==> LowerChar(a[k]) == LowerChar(b[k])
  }

  /** The window of `s` at `i` spells `sub` up to case. */
  ghost predicate OccursAtIgnoringCase(s: string, sub: string, i: int) {
    0 <= i && i + |sub| <= |s| && SameIgnoringCase(s[i..i + |sub|], sub)
  }

  predicate OccursAt(s: string, sub: string, i: int) {
    0 <= i && i + |sub| <= |s| && s[i..i + |sub|] == sub
  }

  /** `sub` is a contiguous part of `s`, searched from the left. */
  function Contains(s: string, sub: string): (r: bool)
    ensures r <==> exists i :: OccursAt(s, sub, i)
    decreases |s|
  {
    if |sub| > |s| then false
    else if s[..|sub|] == sub then (assert OccursAt(s, sub, 0); true)
    else
      var r := Contains(s[1..], sub);
      assert r ==> exists i :: OccursAt(s, sub, i) by {
        if r {
          var i :| OccursAt(s[1..], sub, i);
          assert s[1..][i..i + |sub|] == s[i + 1..i + 1 + |sub|];
          assert OccursAt(s, sub, i + 1);
        }
      }
      assert (exists i :: OccursAt(s, sub, i)) ==> r by {
        if exists i :: OccursAt(s, sub, i) {
          var i :| OccursAt(s, sub, i);
          assert i != 0;
          assert s[1..][i - 1..i - 1 + |sub|] == s[i..i + |sub|];
          assert OccursAt(s[1..], sub, i - 1);
        }
      }
      r
  }

  /** Case-insensitive containment, folding ASCII letters only: some
      window of `s` spells `sub` up to case. */
  function ContainsIgnoringCase(s: string, sub: string): (r: bool)
    ensures r <==> exists i :: OccursAtIgnoringCase(s, sub, i)
  {
    var r := Contains(Lower(s), Lower(sub));
    assert r ==> exists i :: OccursAtIgnoringCase(s, sub, i) by {
      if r {
        var i :| OccursAt(Lower(s), Lower(sub), i);
        LowerWindow(s, sub, i);
      }
    }
    assert (exists i :: OccursAtIgnoringCase(s, sub, i)) ==> r by {
      if exists i :: OccursAtIgnoringCase(s, sub, i) {
        var i :| OccursAtIgnoringCase(s, sub, i);
        LowerWindow(s, sub, i);
      }
    }
    r
  }

  /** A window of the folded text is the folded pattern exactly when the
      window spells the pattern up to case. */
  lemma LowerWindow(s: string, sub: string, i: int)
    requires 0 <= i && i + |sub| <= |s|
    ensures OccursAt(Lower(s), Lower(sub), i) <==> OccursAtIgnoringCase(s, sub, i)
  {
    var w := s[i..i + |sub|];
    if OccursAt(Lower(s), Lower(sub), i) {
      forall k | 0 <= k < |w| ensures LowerChar(w[k]) == LowerChar(sub[k]) {
        assert Lower(s)[i..i + |sub|][k] == Lower(sub)[k];
      }
    }
    if SameIgnoringCase(w, sub) {
      assert Lower(s)[i..i + |sub|] == Lower(sub);
    }
  }

  /** The search does not see case: changing the case of letters in the
      text or in the pattern does not change the answer. */
  lemma {:induction false} ContainsIgnoringCaseIgnoresCase(s: string, s': string, sub: string, sub': string)
    requires SameIgnoringCase(s, s') && SameIgnoringCase(sub, sub')
    ensures ContainsIgnoringCase(s, sub) == ContainsIgnoringCase(s', sub')
  {
    assert Lower(s) == Lower(s');
    assert Lower(sub) == Lower(sub');
  }
}
